=== FILE: README.md ===
# Landed cost voucher: charge distribution and re-valuation

This project models how the `distribute_landed_cost_on_items` helper of ERPNext's Landed Cost
Voucher tests spreads a voucher's pool of extra purchase charges (freight, insurance, ...) over
the item rows of the purchase receipts or stock invoices it references, and what the voucher
tests require of the books once the voucher is submitted. The tests call the helper themselves
before submitting; the Landed Cost Voucher document code is not part of this model.

- `LandedCost` (`distribution.dfy`): the voucher, its item rows and the distribution rule
  `distribute_landed_cost_on_items`. The configured basis name is lower-cased, the named
  field is summed over all rows, and every row's `applicable_charges` becomes
  basis value × `total_taxes_and_charges` ÷ total. A zero total over at least one row is the
  helper's division error and is returned as `Err(ZeroDistributionBasis)`. The rule is given
  twice: as a pure function and as a method with the helper's two loops.
- `DistributionProperties` (`properties.dfy`): case-insensitive basis lookup, conservation of
  the pool, bounds, equal and proportional treatment of rows, and the 25 / 50 figures.
- `Revaluation` (`revaluation.dfy`): the stock ledger and serial number effects of submitting a
  voucher, stated only as far as the tests assert them: quantity unchanged; the stock value of a
  receipt's entry raised by its rows' charges when no other receipt of the voucher moves the same
  item and warehouse; each serial number's purchase rate raised by the row's charge divided by
  its unit count; warehouse unchanged. The new stock value of every other entry is an input,
  `repost`.
- `Scenarios` (`scenarios.dfy`): the three test scenarios over arbitrary books, and the balance of
  the two expected general ledger tables.

Numbers are exact reals. Item rows keep their numeric fields in a map from field name to value;
a missing field reads as 0, as `flt(None)` does. `applicable_charges` lives in the same map, so
choosing it as the basis behaves as in ERPNext: the old value is read, then overwritten.

## Model

| member | source | states |
|---|---|---|
| LandedCost.Lower | erpnext/stock/doctype/landed_cost_voucher/test_landed_cost_voucher.py:163 | the lower-cased basis name has the same length, turns every upper-case ASCII letter into its lower-case partner, contains no upper-case ASCII letter, and keeps every other character |
| LandedCost.AllocateRows | erpnext/stock/doctype/landed_cost_voucher/test_landed_cost_voucher.py:165-166 | every row, in order, gets its share of the pool written to `applicable_charges`; the row count is kept |
| LandedCost.Distribute | erpnext/stock/doctype/landed_cost_voucher/test_landed_cost_voucher.py:162-166 | fails exactly when there is at least one row and the basis total is 0; otherwise keeps the row count and order, gives each row basis × pool ÷ total, adds only the `applicable_charges` field and leaves every other field and the row's identity unchanged |
| LandedCost.DistributeLandedCostOnItems | erpnext/stock/doctype/landed_cost_voucher/test_landed_cost_voucher.py:162-166 | the two-loop version (running sum, then one writing pass that fails on a zero total) computes the same result as the functional rule |
| DistributionProperties.BasisLookupIgnoresCase | erpnext/stock/doctype/landed_cost_voucher/test_landed_cost_voucher.py:163-164 | two basis names that differ only in letter case read the same value from every row |
| DistributionProperties.AmountBasisSelectsAmountField | erpnext/stock/doctype/landed_cost_voucher/test_landed_cost_voucher.py:163 | the configured basis `Amount` (set at line 140) selects the item field `amount` |
| DistributionProperties.UnknownBasisFails | erpnext/stock/doctype/landed_cost_voucher/test_landed_cost_voucher.py:164-166 | a basis name no row carries makes every row count 0, so a voucher with rows fails with the zero-total error |
| DistributionProperties.AllocatedChargesTotal | erpnext/stock/doctype/landed_cost_voucher/test_landed_cost_voucher.py:164-166 | the written charges add up to the basis total's own share of the pool |
| DistributionProperties.DistributionConservesPool | erpnext/stock/doctype/landed_cost_voucher/test_landed_cost_voucher.py:164-166 | after a successful distribution over at least one row the charges sum to `total_taxes_and_charges` exactly |
| DistributionProperties.ChargeWithinPool | erpnext/stock/doctype/landed_cost_voucher/test_landed_cost_voucher.py:166 | with non-negative basis values and pool, every row's charge lies between 0 and the pool |
| DistributionProperties.EqualBasisEqualCharge | erpnext/stock/doctype/landed_cost_voucher/test_landed_cost_voucher.py:166 | rows with equal basis values get equal charges |
| DistributionProperties.ChargesProportionalToBasis | erpnext/stock/doctype/landed_cost_voucher/test_landed_cost_voucher.py:166 | any two rows' charges stand in the ratio of their basis values (cross-multiplied) |
| DistributionProperties.SingleRowTakesWholePool | erpnext/stock/doctype/landed_cost_voucher/test_landed_cost_voucher.py:166 | a single row with a non-zero basis value succeeds and gets the whole pool |
| DistributionProperties.InvoiceRowGetsFifty | erpnext/stock/doctype/landed_cost_voucher/test_landed_cost_voucher.py:79-84 | the invoice voucher (Amount basis, pool 50, one row with non-zero amount) gives that row 50 |
| DistributionProperties.ReceiptFirstRowGetsHalf | erpnext/stock/doctype/landed_cost_voucher/test_landed_cost_voucher.py:27-30 | for the receipt voucher over two rows with positive amounts, the first row gets 25 if and only if both amounts are equal |
| Revaluation.RevalueLedger | erpnext/stock/doctype/landed_cost_voucher/test_landed_cost_voucher.py:40-42 | every ledger entry keeps its quantity and identity; an entry some row posts to, whose item and warehouse no row of another receipt touches, rises in stock value by the charges of the rows received on it; any other entry takes the re-posted value it is given |
| Revaluation.ReceivedIffSomeRowPosts | erpnext/stock/doctype/landed_cost_voucher/test_landed_cost_voucher.py:19-25 | an entry counts as received exactly when some row matches its voucher type, voucher number, item and warehouse, the key the tests look the entry up by |
| Revaluation.ReceivedElsewhereIffSomeRowMoves | erpnext/stock/doctype/landed_cost_voucher/test_landed_cost_voucher.py:19-25 | an entry counts as touched by another receipt exactly when some row has its item and warehouse but not its voucher |
| Revaluation.OnlyRowRaisesEntry | erpnext/stock/doctype/landed_cost_voucher/test_landed_cost_voucher.py:40-42 | when one row posts to an entry and no other row touches its item and warehouse, submission succeeds, keeps the entry's quantity and raises its stock value by exactly that row's distributed charge |
| Revaluation.LandedCostOfOnlyRow | erpnext/stock/doctype/landed_cost_voucher/test_landed_cost_voucher.py:40-42 | an entry that exactly one row posts to gains exactly that row's charge |
| Revaluation.UpdateSerialRates | erpnext/stock/doctype/landed_cost_voucher/test_landed_cost_voucher.py:130-131 | every serial number keeps its name and warehouse; its purchase rate rises by its unit share |
| Revaluation.UnitShareOfOnlyRow | erpnext/stock/doctype/landed_cost_voucher/test_landed_cost_voucher.py:130 | a unit listed by exactly one row gains that row's charge divided by the row's unit count |
| Revaluation.UnitsShareEvenly | erpnext/stock/doctype/landed_cost_voucher/test_landed_cost_voucher.py:120-130 | all units of a row that no other row lists gain the same amount, and that amount taken once per unit makes up the row's charge |
| Revaluation.RowChargeSpreadOverUnits | erpnext/stock/doctype/landed_cost_voucher/test_landed_cost_voucher.py:120-130 | the unit shares over a row's serial list add up to exactly the row's charge when no other row lists those units |
| Revaluation.SubmitLandedCostVoucher | erpnext/stock/doctype/landed_cost_voucher/test_landed_cost_voucher.py:135-160 | submission fails exactly when distribution fails (books untouched); otherwise the rows are the distribution's, ledger entries keep their quantity, voucher, item and warehouse; entries the rows post to gain the distributed charges when no other receipt of the voucher touches their item and warehouse, the others take the re-posted value; serial numbers keep their names and warehouses and their rates rise by their unit shares |
| Scenarios.ReceiptVoucherRevaluesEntry | erpnext/stock/doctype/landed_cost_voucher/test_landed_cost_voucher.py:27-42 | receipt test: over two rows of one receipt with equal amounts the first row's charge is 25, its entry keeps its quantity and gains 25 in stock value |
| Scenarios.InvoiceVoucherRevaluesEntry | erpnext/stock/doctype/landed_cost_voucher/test_landed_cost_voucher.py:79-96 | invoice test: the single row's charge is 50, its entry keeps its quantity and gains 50 in stock value |
| Scenarios.SerializedReceiptRaisesUnitRate | erpnext/stock/doctype/landed_cost_voucher/test_landed_cost_voucher.py:118-131 | serialized test: a unit among the first row's five gains 5 in purchase rate and keeps its warehouse |
| Scenarios.ExpectedPostingsBalance | erpnext/stock/doctype/landed_cost_voucher/test_landed_cost_voucher.py:52-106 | the receipt's expected postings debit and credit 800 each, the invoice's 300 each |

## Left out

- Document persistence and the framework (`frappe.get_doc`, `new_doc`, `copy_doc`, `insert`,
  `submit`, `db.get_value`, the raw SQL delete at line 116): replaced by immutable values passed in
  and returned.
- `set_perpetual_inventory`, `get_gl_entries`, `make_purchase_invoice` and the test fixtures: their
  source is not part of this model; the global inventory toggle is not modelled.
- General ledger generation: its implementation is not part of this model. Only the two expected
  tables are written down, and only their balance is proved.
- Revaluation.RevalueLedger: pins down the new stock value only of an entry some row posts to
  whose item and warehouse no row of another receipt touches. Stock value is a running balance
  per item and warehouse: ERPNext re-posts the affected entries through its stock valuation, which
  is not part of this model and whose result depends on the valuation method and on the order of
  the movements. So a voucher over several receipts of one item and warehouse, and every entry no
  row posts to (other items, other warehouses, earlier or later movements), get their new stock
  value from the input `repost`.
- Revaluation.SubmitLandedCostVoucher: promises the stock value rise only for the entries above,
  for the same reason.
- An entry is matched to a row by voucher, item and warehouse, as the tests look it up (lines
  19-25). If several rows of one receipt share item and warehouse, each matching entry gains
  all their charges. ERPNext ties each entry to its own receipt row, which these tests do not
  distinguish.
- Revaluation.UpdateSerialRates: models only the increment the test asserts; how ERPNext
  recomputes a serial number's purchase rate is not part of this model.
- LandedCost.Lower: lower-cases ASCII letters only; Python's `str.lower` also folds non-ASCII letters.
- Text fields: the model keeps only numeric fields in the row's map, and any other name reads as 0.
  This matches `flt` on non-numeric text, which gives 0. A text field holding a number (`flt("12")`
  is 12.0) is not modelled: such a field is dropped and reads as 0.
- The receipt's or invoice's own item field `landed_cost_voucher_amount` (lines 29-30, 81-84) is not
  modelled. The tests read the 25 and 50 from it. The model proves them for the voucher row's
  `applicable_charges`. Copying that charge into the receipt item happens in the voucher's submit code,
  which is not part of this model.
- The serial number text (`"SN001\nSN002..."`, line 120) is taken as an already split list.
- `total_taxes_and_charges` is taken as a voucher field; its computation from the charge lines is
  not part of this model. Floating-point rounding is not modelled: the arithmetic is exact.
- The voucher's Draft / Submitted / Cancelled life cycle and cancellation: not exercised by the
  modelled code, which only builds, distributes and submits one voucher.
- A check that a serialized row's quantity matches its number of serial numbers: not in the
  modelled code. `UnitShare` divides a row's charge by the length of its serial list.
- There is no separate invalid-basis error (an unknown basis name reads 0 on every row and ends in the
  zero-total error); no rounding residue is assigned to any row; a voucher without item rows
  is not an error (the writing loop never runs).

=== FILE: distribution.dfy ===
/**
 Landed-cost distribution: the charge pool of a Landed Cost Voucher is spread over the
 voucher's item rows in proportion to a chosen basis field (amount, qty, ...).

 The rule is the `distribute_landed_cost_on_items` helper of ERPNext's Landed Cost Voucher
 tests, which the tests call before submitting a voucher. Numbers are exact reals; its
 floating-point conversion `flt` becomes the identity on numbers and 0 on a missing field.
 */
module LandedCost {

  /** The field every item row receives its share of the charge pool in. */
  const ApplicableCharges: string := "applicable_charges"

  /** One row of the voucher's item table. Numeric fields are kept by name so that the
      basis can be chosen by a configured field name. */
  datatype ItemRow = ItemRow(
    receiptType: string,
    receiptNo: string,
    itemCode: string,
    warehouse: string,
    serialNos: seq<string>,
    fields: map<string, real>)

  datatype Voucher = Voucher(
    distributeChargesBasedOn: string,
    totalTaxesAndCharges: real,
    items: seq<ItemRow>)

  datatype LandedCostError = ZeroDistributionBasis

  datatype Result<T> = Ok(value: T) | Err(error: LandedCostError)

  /* ---------- basis name ---------- */

  function LowerChar(c: char): char
  {
    if 'A' <= c <= 'Z' then (c as int - 'A' as int + 'a' as int) as char else c
  }

  /** ASCII lower-casing of a configured field name. */
  function Lower(s: string): (r: string)
    ensures |r| == |s|
    ensures forall i :: 0 <= i < |s| ==> !('A' <= r[i] <= 'Z')
    ensures forall i :: 0 <= i < |s| && 'A' <= s[i] <= 'Z' ==>
      r[i] as int == s[i] as int + ('a' as int - 'A' as int)
    ensures forall i :: 0 <= i < |s| && !('A' <= s[i] <= 'Z') ==> r[i] == s[i]
  {
    seq(|s|, i requires 0 <= i < |s| => LowerChar(s[i]))
  }

  /** The numeric value of a named field, 0 when the row has no such field. */
  function FieldValue(row: ItemRow, name: string): real
  {
    if name in row.fields then row.fields[name] else 0.0
  }

  /** The value a row contributes under the configured basis name. */
  function BasisValue(row: ItemRow, basis: string): real
  {
    FieldValue(row, Lower(basis))
  }

  /** Sum of a named field over the rows, accumulated left to right. */
  function FieldTotal(rows: seq<ItemRow>, name: string): real
  {
    if |rows| == 0 then 0.0
    else FieldTotal(rows[..|rows| - 1], name) + FieldValue(rows[|rows| - 1], name)
  }

  /* ---------- allocation ---------- */

  /** A row's share of `pool`: its basis value times the pool, divided by the basis total. */
  function Share(basis: real, pool: real, total: real): real
    requires total != 0.0
  {
    basis * pool / total
  }

  /** The row with its applicable charges set to its share of `pool`. */
  function Charged(row: ItemRow, name: string, pool: real, total: real): ItemRow
    requires total != 0.0
  {
    row.(fields := row.fields[ApplicableCharges := Share(FieldValue(row, name), pool, total)])
  }

  function AllocateRows(rows: seq<ItemRow>, name: string, pool: real, total: real): (r: seq<ItemRow>)
    requires total != 0.0
    ensures |r| == |rows|
    ensures forall i :: 0 <= i < |rows| ==> r[i] == Charged(rows[i], name, pool, total)
  {
    if |rows| == 0 then []
    else AllocateRows(rows[..|rows| - 1], name, pool, total) + [Charged(rows[|rows| - 1], name, pool, total)]
  }

  /** Distribution of the voucher's charge pool over its item rows. */
  function Distribute(v: Voucher): (r: Result<seq<ItemRow>>)
    ensures r.Err? <==> |v.items| > 0 && FieldTotal(v.items, Lower(v.distributeChargesBasedOn)) == 0.0
    ensures r.Ok? ==> |r.value| == |v.items|
    ensures r.Ok? ==> forall i :: 0 <= i < |v.items| ==>
      FieldValue(r.value[i], ApplicableCharges)
        == Share(BasisValue(v.items[i], v.distributeChargesBasedOn), v.totalTaxesAndCharges,
                 FieldTotal(v.items, Lower(v.distributeChargesBasedOn)))
    ensures r.Ok? ==> forall i :: 0 <= i < |v.items| ==>
      && r.value[i].fields.Keys == v.items[i].fields.Keys + {ApplicableCharges}
      && (forall k :: k in v.items[i].fields && k != ApplicableCharges ==>
            r.value[i].fields[k] == v.items[i].fields[k])
      && r.value[i].(fields := v.items[i].fields) == v.items[i]
  {
    var basedOn := Lower(v.distributeChargesBasedOn);
    var total := FieldTotal(v.items, basedOn);
    if |v.items| > 0 && total == 0.0 then Err(ZeroDistributionBasis)
    else if |v.items| == 0 then Ok([])
    else Ok(AllocateRows(v.items, basedOn, v.totalTaxesAndCharges, total))
  }

  /** The same distribution as the two loops of the test helper: a running sum, then one
      pass that writes each row's share. */
  method DistributeLandedCostOnItems(v: Voucher) returns (r: Result<seq<ItemRow>>)
    ensures r == Distribute(v)
  {
    var basedOn := Lower(v.distributeChargesBasedOn);
    var total := 0.0;
    var i := 0;
    while i < |v.items|
      invariant 0 <= i <= |v.items|
      invariant total == FieldTotal(v.items[..i], basedOn)
    {
      assert v.items[..i + 1][..i] == v.items[..i];
      total := total + FieldValue(v.items[i], basedOn);
      i := i + 1;
    }
    assert v.items[..i] == v.items;
    var items := v.items;
    var j := 0;
    while j < |items|
      invariant 0 <= j <= |items| == |v.items|
      invariant total == 0.0 ==> j == 0
      invariant forall k :: 0 <= k < j ==> items[k] == Charged(v.items[k], basedOn, v.totalTaxesAndCharges, total)
      invariant forall k :: j <= k < |items| ==> items[k] == v.items[k]
    {
      if total == 0.0 {
        return Err(ZeroDistributionBasis);
      }
      items := items[j := Charged(items[j], basedOn, v.totalTaxesAndCharges, total)];
      j := j + 1;
    }
    if |items| == 0 {
      return Ok([]);
    }
    r := Ok(items);
    assert items == AllocateRows(v.items, basedOn, v.totalTaxesAndCharges, total);
  }
}

=== FILE: properties.dfy ===
/**
 Properties of the landed-cost distribution: case-insensitive basis lookup, conservation
 of the charge pool, bounds, equal treatment of equal rows, and the worked figures of the
 voucher tests.
 */
module DistributionProperties {
  import opened LandedCost

  /* ---------- basis name ---------- */

  /** Two names that differ only in the case of their letters select the same field. */
  lemma BasisLookupIgnoresCase(row: ItemRow, a: string, b: string)
    requires |a| == |b|
    requires forall i :: 0 <= i < |a| ==> LowerChar(a[i]) == LowerChar(b[i])
    ensures BasisValue(row, a) == BasisValue(row, b)
  {
    assert Lower(a) == Lower(b);
  }

  /** The configured basis `Amount` selects the item field `amount`. */
  lemma AmountBasisSelectsAmountField(row: ItemRow)
    ensures Lower("Amount") == "amount"
    ensures BasisValue(row, "Amount") == FieldValue(row, "amount")
  {
    assert Lower("Amount") == "amount" by {
      assert LowerChar('A') == 'a';
    }
  }

  /** A basis name that no row carries makes every row count as 0, so a non-empty voucher
      cannot be distributed. */
  lemma UnknownBasisFails(v: Voucher)
    requires |v.items| > 0
    requires forall i :: 0 <= i < |v.items| ==> Lower(v.distributeChargesBasedOn) !in v.items[i].fields
    ensures Distribute(v) == Err(ZeroDistributionBasis)
  {
    ZeroFieldsZeroTotal(v.items, Lower(v.distributeChargesBasedOn));
  }

  lemma {:induction false} ZeroFieldsZeroTotal(rows: seq<ItemRow>, name: string)
    requires forall i :: 0 <= i < |rows| ==> name !in rows[i].fields
    ensures FieldTotal(rows, name) == 0.0
  {
    if |rows| > 0 {
      ZeroFieldsZeroTotal(rows[..|rows| - 1], name);
    }
  }

  /* ---------- arithmetic of one share ---------- */

  /** Shares of two basis values add up to the share of their sum. */
  lemma ShareAdds(a: real, b: real, pool: real, total: real)
    requires total != 0.0
    ensures Share(a, pool, total) + Share(b, pool, total) == Share(a + b, pool, total)
  {
  }

  /** The whole basis total takes the whole pool. */
  lemma ShareOfWhole(pool: real, total: real)
    requires total != 0.0
    ensures Share(total, pool, total) == pool
  {
  }

  /** A basis value between 0 and the total takes between nothing and the whole pool. */
  lemma ShareBounded(basis: real, pool: real, total: real)
    requires 0.0 <= basis <= total && total != 0.0
    requires pool >= 0.0
    ensures 0.0 <= Share(basis, pool, total) <= pool
  {
    assert basis * pool <= total * pool;
    assert basis * pool / total <= total * pool / total;
    assert total * pool / total == pool;
  }

  /** Shares are proportional to their basis values. */
  lemma ShareCross(a: real, b: real, pool: real, total: real)
    requires total != 0.0
    ensures Share(a, pool, total) * b == Share(b, pool, total) * a
  {
  }

  /* ---------- conservation ---------- */

  /** The shares written by the allocation add up to the basis total scaled by pool / total. */
  lemma {:induction false} AllocatedChargesTotal(rows: seq<ItemRow>, name: string, pool: real, total: real)
    requires total != 0.0
    ensures FieldTotal(AllocateRows(rows, name, pool, total), ApplicableCharges)
      == Share(FieldTotal(rows, name), pool, total)
  {
    if |rows| > 0 {
      var n := |rows| - 1;
      var r := AllocateRows(rows, name, pool, total);
      var prefix := AllocateRows(rows[..n], name, pool, total);
      assert r[..n] == prefix;
      var s := FieldTotal(rows[..n], name);
      var b := FieldValue(rows[n], name);
      assert FieldTotal(rows, name) == s + b;
      assert FieldValue(r[n], ApplicableCharges) == Share(b, pool, total);
      assert FieldTotal(r, ApplicableCharges) == FieldTotal(prefix, ApplicableCharges) + Share(b, pool, total);
      AllocatedChargesTotal(rows[..n], name, pool, total);
      ShareAdds(s, b, pool, total);
    }
  }

  /** A successful distribution over at least one row hands out exactly the charge pool. */
  lemma DistributionConservesPool(v: Voucher)
    requires Distribute(v).Ok?
    requires |v.items| > 0
    ensures FieldTotal(Distribute(v).value, ApplicableCharges) == v.totalTaxesAndCharges
  {
    var name := Lower(v.distributeChargesBasedOn);
    var total := FieldTotal(v.items, name);
    AllocatedChargesTotal(v.items, name, v.totalTaxesAndCharges, total);
    ShareOfWhole(v.totalTaxesAndCharges, total);
  }

  /* ---------- bounds and fairness ---------- */

  predicate NonNegativeBasis(rows: seq<ItemRow>, name: string)
  {
    forall i :: 0 <= i < |rows| ==> FieldValue(rows[i], name) >= 0.0
  }

  /** With non-negative values every row's value lies between 0 and the total. */
  lemma {:induction false} FieldWithinTotal(rows: seq<ItemRow>, name: string, i: int)
    requires NonNegativeBasis(rows, name)
    requires 0 <= i < |rows|
    ensures 0.0 <= FieldValue(rows[i], name) <= FieldTotal(rows, name)
  {
    var n := |rows| - 1;
    NonNegativeTotal(rows[..n], name);
    if i < n {
      assert rows[..n][i] == rows[i];
      FieldWithinTotal(rows[..n], name, i);
    }
  }

  lemma {:induction false} NonNegativeTotal(rows: seq<ItemRow>, name: string)
    requires NonNegativeBasis(rows, name)
    ensures FieldTotal(rows, name) >= 0.0
  {
    if |rows| > 0 {
      var n := |rows| - 1;
      assert NonNegativeBasis(rows[..n], name) by {
        forall j | 0 <= j < n ensures FieldValue(rows[..n][j], name) >= 0.0 {
          assert rows[..n][j] == rows[j];
        }
      }
      NonNegativeTotal(rows[..n], name);
    }
  }

  /** With non-negative basis values and pool, no row receives less than 0 or more than the pool. */
  lemma ChargeWithinPool(v: Voucher, i: int)
    requires Distribute(v).Ok?
    requires NonNegativeBasis(v.items, Lower(v.distributeChargesBasedOn))
    requires v.totalTaxesAndCharges >= 0.0
    requires 0 <= i < |v.items|
    ensures 0.0 <= FieldValue(Distribute(v).value[i], ApplicableCharges) <= v.totalTaxesAndCharges
  {
    var name := Lower(v.distributeChargesBasedOn);
    FieldWithinTotal(v.items, name, i);
    ShareBounded(FieldValue(v.items[i], name), v.totalTaxesAndCharges, FieldTotal(v.items, name));
  }

  /** Rows with the same basis value receive the same charge. */
  lemma EqualBasisEqualCharge(v: Voucher, i: int, j: int)
    requires Distribute(v).Ok?
    requires 0 <= i < |v.items| && 0 <= j < |v.items|
    requires BasisValue(v.items[i], v.distributeChargesBasedOn) == BasisValue(v.items[j], v.distributeChargesBasedOn)
    ensures FieldValue(Distribute(v).value[i], ApplicableCharges) == FieldValue(Distribute(v).value[j], ApplicableCharges)
  {
  }

  /** Charges stand in the same ratio as the basis values they were computed from. */
  lemma ChargesProportionalToBasis(v: Voucher, i: int, j: int)
    requires Distribute(v).Ok?
    requires 0 <= i < |v.items| && 0 <= j < |v.items|
    ensures FieldValue(Distribute(v).value[i], ApplicableCharges) * BasisValue(v.items[j], v.distributeChargesBasedOn)
         == FieldValue(Distribute(v).value[j], ApplicableCharges) * BasisValue(v.items[i], v.distributeChargesBasedOn)
  {
    var name := Lower(v.distributeChargesBasedOn);
    ShareCross(FieldValue(v.items[i], name), FieldValue(v.items[j], name), v.totalTaxesAndCharges,
               FieldTotal(v.items, name));
  }

  /* ---------- worked figures ---------- */

  /** A voucher over a single row with a non-zero basis gives that row the whole pool. */
  lemma SingleRowTakesWholePool(v: Voucher)
    requires |v.items| == 1
    requires BasisValue(v.items[0], v.distributeChargesBasedOn) != 0.0
    ensures Distribute(v).Ok?
    ensures FieldValue(Distribute(v).value[0], ApplicableCharges) == v.totalTaxesAndCharges
  {
    var name := Lower(v.distributeChargesBasedOn);
    assert v.items[..0] == [];
    assert FieldTotal(v.items, name) == FieldValue(v.items[0], name);
    ShareOfWhole(v.totalTaxesAndCharges, FieldValue(v.items[0], name));
  }

  /** The purchase-invoice voucher: pool 50 on the Amount basis over one row. */
  lemma InvoiceRowGetsFifty(row: ItemRow)
    requires FieldValue(row, "amount") != 0.0
    ensures var r := Distribute(Voucher("Amount", 50.0, [row]));
      r.Ok? && FieldValue(r.value[0], ApplicableCharges) == 50.0
  {
    AmountBasisSelectsAmountField(row);
    SingleRowTakesWholePool(Voucher("Amount", 50.0, [row]));
  }

  /** The purchase-receipt voucher: pool 50 on the Amount basis over two rows with positive
      amounts gives the first row 25 exactly when both amounts are equal. */
  lemma ReceiptFirstRowGetsHalf(a: ItemRow, b: ItemRow)
    requires FieldValue(a, "amount") > 0.0 && FieldValue(b, "amount") > 0.0
    ensures var r := Distribute(Voucher("Amount", 50.0, [a, b]));
      r.Ok? && (FieldValue(r.value[0], ApplicableCharges) == 25.0 <==> FieldValue(a, "amount") == FieldValue(b, "amount"))
  {
    AmountBasisSelectsAmountField(a);
    AmountBasisSelectsAmountField(b);
    var rows := [a, b];
    var x := FieldValue(a, "amount");
    var y := FieldValue(b, "amount");
    assert rows[..1] == [a];
    assert [a][..0] == [];
    assert FieldTotal([a], "amount") == x;
    assert FieldTotal(rows, "amount") == x + y;
    var r := Distribute(Voucher("Amount", 50.0, rows));
    assert r.Ok?;
    assert FieldValue(r.value[0], ApplicableCharges) == Share(x, 50.0, x + y);
    assert Share(x, 50.0, x + y) == 25.0 <==> x == y by {
      assert x * 50.0 / (x + y) == 25.0 <==> x * 50.0 == 25.0 * (x + y);
    }
  }
}

=== FILE: revaluation.dfy ===
/**
 What submitting a Landed Cost Voucher does to the books, to the extent the voucher tests
 pin it down: the receipt's stock ledger entries keep their quantity and gain the charge
 allocated to their item row, and each serial number of a charged row gains an even
 share of that row's charge while staying in its warehouse.

 Stock value is a running balance per item and warehouse, and ERPNext's stock valuation
 re-posts the entries it affects; that valuation is not part of this model. The model pins
 down only the entries of a receipt whose item and warehouse no other receipt of the voucher
 touches (`OwnCharges`); every other entry takes the new stock value given by the input
 `repost`.
 */
module Revaluation {
  import opened LandedCost

  /** A stock ledger entry, identified by the voucher that made it and its item and warehouse. */
  datatype StockLedgerEntry = StockLedgerEntry(
    voucherType: string,
    voucherNo: string,
    itemCode: string,
    warehouse: string,
    qtyAfterTransaction: real,
    stockValue: real)

  /** A serialized unit's cost record. */
  datatype SerialNo = SerialNo(name: string, warehouse: string, purchaseRate: real)

  datatype Books = Books(ledger: seq<StockLedgerEntry>, serials: seq<SerialNo>)

  datatype Submission = Submission(items: seq<ItemRow>, books: Books)

  /* ---------- stock ledger ---------- */

  /** The row was received by the voucher that made the entry, for the entry's item and warehouse. */
  predicate PostsTo(row: ItemRow, e: StockLedgerEntry)
  {
    row.receiptType == e.voucherType && row.receiptNo == e.voucherNo
    && row.itemCode == e.itemCode && row.warehouse == e.warehouse
  }

  /** The landed cost the rows add to an entry: the applicable charges of the rows that post to it. */
  function LandedCostOn(rows: seq<ItemRow>, e: StockLedgerEntry): real
  {
    if |rows| == 0 then 0.0
    else LandedCostOn(rows[..|rows| - 1], e) + RowCostOn(rows[|rows| - 1], e)
  }

  function RowCostOn(row: ItemRow, e: StockLedgerEntry): real
  {
    if PostsTo(row, e) then FieldValue(row, ApplicableCharges) else 0.0
  }

  /** Some row was received on the entry. */
  predicate Received(rows: seq<ItemRow>, e: StockLedgerEntry)
  {
    |rows| > 0 && (Received(rows[..|rows| - 1], e) || PostsTo(rows[|rows| - 1], e))
  }

  /** The row belongs to another receipt but moves the entry's item in the entry's warehouse. */
  predicate SameStockElsewhere(row: ItemRow, e: StockLedgerEntry)
  {
    row.itemCode == e.itemCode && row.warehouse == e.warehouse && !PostsTo(row, e)
  }

  /** A row of another receipt moves the entry's item in the entry's warehouse, so its charge
      reaches the entry's running stock value (or not) depending on the order of the movements. */
  predicate ReceivedElsewhere(rows: seq<ItemRow>, e: StockLedgerEntry)
  {
    |rows| > 0 && (ReceivedElsewhere(rows[..|rows| - 1], e) || SameStockElsewhere(rows[|rows| - 1], e))
  }

  /** `Received` holds exactly when some row posts to the entry. */
  lemma {:induction false} ReceivedIffSomeRowPosts(rows: seq<ItemRow>, e: StockLedgerEntry)
    ensures Received(rows, e) <==> exists k :: 0 <= k < |rows| && PostsTo(rows[k], e)
  {
    if |rows| > 0 {
      var n := |rows| - 1;
      ReceivedIffSomeRowPosts(rows[..n], e);
      if Received(rows[..n], e) {
        var k :| 0 <= k < n && PostsTo(rows[..n][k], e);
        assert PostsTo(rows[k], e);
      }
      if exists k :: 0 <= k < |rows| && PostsTo(rows[k], e) {
        var k :| 0 <= k < |rows| && PostsTo(rows[k], e);
        if k < n {
          assert PostsTo(rows[..n][k], e);
        }
      }
    }
  }

  /** `ReceivedElsewhere` holds exactly when some row of another receipt moves the entry's item
      in the entry's warehouse. */
  lemma {:induction false} ReceivedElsewhereIffSomeRowMoves(rows: seq<ItemRow>, e: StockLedgerEntry)
    ensures ReceivedElsewhere(rows, e) <==> exists k :: 0 <= k < |rows| && SameStockElsewhere(rows[k], e)
  {
    if |rows| > 0 {
      var n := |rows| - 1;
      ReceivedElsewhereIffSomeRowMoves(rows[..n], e);
      if ReceivedElsewhere(rows[..n], e) {
        var k :| 0 <= k < n && SameStockElsewhere(rows[..n][k], e);
        assert SameStockElsewhere(rows[k], e);
      }
      if exists k :: 0 <= k < |rows| && SameStockElsewhere(rows[k], e) {
        var k :| 0 <= k < |rows| && SameStockElsewhere(rows[k], e);
        if k < n {
          assert SameStockElsewhere(rows[..n][k], e);
        }
      }
    }
  }

  /** The entry's new stock value is determined by the voucher alone: some row posts to it and
      no row of another receipt touches its item and warehouse. */
  predicate OwnCharges(rows: seq<ItemRow>, e: StockLedgerEntry)
  {
    Received(rows, e) && !ReceivedElsewhere(rows, e)
  }

  /** Re-valuation of the stock ledger by the distributed rows. An entry whose item and
      warehouse only its own receipt's rows touch gains those rows' charges; any other entry
      takes the stock value `repost` gives it. */
  function RevalueLedger(ledger: seq<StockLedgerEntry>, rows: seq<ItemRow>,
                         repost: StockLedgerEntry -> real): (r: seq<StockLedgerEntry>)
    ensures |r| == |ledger|
    ensures forall i :: 0 <= i < |ledger| ==>
      && r[i].qtyAfterTransaction == ledger[i].qtyAfterTransaction
      && r[i].(stockValue := ledger[i].stockValue) == ledger[i]
    ensures forall i :: 0 <= i < |ledger| && OwnCharges(rows, ledger[i]) ==>
      r[i].stockValue - ledger[i].stockValue == LandedCostOn(rows, ledger[i])
    ensures forall i :: 0 <= i < |ledger| && !OwnCharges(rows, ledger[i]) ==>
      r[i].stockValue == repost(ledger[i])
  {
    seq(|ledger|, i requires 0 <= i < |ledger| => Revalued(ledger[i], rows, repost))
  }

  function Revalued(e: StockLedgerEntry, rows: seq<ItemRow>, repost: StockLedgerEntry -> real): StockLedgerEntry
  {
    if OwnCharges(rows, e) then e.(stockValue := e.stockValue + LandedCostOn(rows, e))
    else e.(stockValue := repost(e))
  }

  /** When exactly one row posts to an entry, the entry's value rises by that row's charge. */
  lemma {:induction false} LandedCostOfOnlyRow(rows: seq<ItemRow>, e: StockLedgerEntry, k: int)
    requires 0 <= k < |rows|
    requires PostsTo(rows[k], e)
    requires forall j :: 0 <= j < |rows| && j != k ==> !PostsTo(rows[j], e)
    ensures LandedCostOn(rows, e) == FieldValue(rows[k], ApplicableCharges)
  {
    var n := |rows| - 1;
    if k == n {
      NoPostingNoLandedCost(rows[..n], e);
    } else {
      assert rows[..n][k] == rows[k];
      LandedCostOfOnlyRow(rows[..n], e, k);
    }
  }

  /** An entry no row posts to keeps its value. */
  lemma {:induction false} NoPostingNoLandedCost(rows: seq<ItemRow>, e: StockLedgerEntry)
    requires forall j :: 0 <= j < |rows| ==> !PostsTo(rows[j], e)
    ensures LandedCostOn(rows, e) == 0.0
  {
    if |rows| > 0 {
      NoPostingNoLandedCost(rows[..|rows| - 1], e);
    }
  }

  /* ---------- serial numbers ---------- */

  /** What a serialized unit gains from the rows: every row listing it contributes its
      charge divided by the number of units it lists. */
  function UnitShare(rows: seq<ItemRow>, name: string): real
  {
    if |rows| == 0 then 0.0
    else UnitShare(rows[..|rows| - 1], name) + RowShareFor(rows[|rows| - 1], name)
  }

  function RowShareFor(row: ItemRow, name: string): real
  {
    if name in row.serialNos then FieldValue(row, ApplicableCharges) / |row.serialNos| as real else 0.0
  }

  function UpdateSerialRates(serials: seq<SerialNo>, rows: seq<ItemRow>): (r: seq<SerialNo>)
    ensures |r| == |serials|
    ensures forall i :: 0 <= i < |serials| ==>
      && r[i].name == serials[i].name
      && r[i].warehouse == serials[i].warehouse
      && r[i].purchaseRate - serials[i].purchaseRate == UnitShare(rows, serials[i].name)
  {
    seq(|serials|, i requires 0 <= i < |serials| =>
      serials[i].(purchaseRate := serials[i].purchaseRate + UnitShare(rows, serials[i].name)))
  }

  /** A unit listed by exactly one row gains that row's charge divided by its unit count. */
  lemma {:induction false} UnitShareOfOnlyRow(rows: seq<ItemRow>, name: string, k: int)
    requires 0 <= k < |rows|
    requires name in rows[k].serialNos
    requires forall j :: 0 <= j < |rows| && j != k ==> name !in rows[j].serialNos
    ensures UnitShare(rows, name) == FieldValue(rows[k], ApplicableCharges) / |rows[k].serialNos| as real
  {
    var n := |rows| - 1;
    if k == n {
      UnlistedUnitGainsNothing(rows[..n], name);
    } else {
      assert rows[..n][k] == rows[k];
      UnitShareOfOnlyRow(rows[..n], name, k);
    }
  }

  lemma {:induction false} UnlistedUnitGainsNothing(rows: seq<ItemRow>, name: string)
    requires forall j :: 0 <= j < |rows| ==> name !in rows[j].serialNos
    ensures UnitShare(rows, name) == 0.0
  {
    if |rows| > 0 {
      UnlistedUnitGainsNothing(rows[..|rows| - 1], name);
    }
  }

  /** Sum of the unit shares over a list of serial numbers. */
  function SharesOf(rows: seq<ItemRow>, names: seq<string>): real
  {
    if |names| == 0 then 0.0 else SharesOf(rows, names[..|names| - 1]) + UnitShare(rows, names[|names| - 1])
  }

  /** The units of a row, when no other row lists them, gain together exactly the row's charge. */
  lemma RowChargeSpreadOverUnits(rows: seq<ItemRow>, k: int)
    requires 0 <= k < |rows|
    requires |rows[k].serialNos| > 0
    requires forall j, u :: 0 <= j < |rows| && j != k && u in rows[k].serialNos ==> u !in rows[j].serialNos
    ensures SharesOf(rows, rows[k].serialNos) == FieldValue(rows[k], ApplicableCharges)
  {
    var q := UnitsShareEvenly(rows, k);
    SameSharesSum(rows, rows[k].serialNos, q);
  }

  /** Every unit of a row that no other row lists gains the same amount, the row's charge
      divided by its unit count. */
  lemma UnitsShareEvenly(rows: seq<ItemRow>, k: int) returns (q: real)
    requires 0 <= k < |rows|
    requires |rows[k].serialNos| > 0
    requires forall j, u :: 0 <= j < |rows| && j != k && u in rows[k].serialNos ==> u !in rows[j].serialNos
    ensures Times(|rows[k].serialNos|, q) == FieldValue(rows[k], ApplicableCharges)
    ensures forall j :: 0 <= j < |rows[k].serialNos| ==> UnitShare(rows, rows[k].serialNos[j]) == q
  {
    q := FieldValue(rows[k], ApplicableCharges) / |rows[k].serialNos| as real;
    EvenPartsMakeWhole(|rows[k].serialNos| as real, FieldValue(rows[k], ApplicableCharges), q);
    TimesIsProduct(|rows[k].serialNos|, q);
    forall j | 0 <= j < |rows[k].serialNos|
      ensures UnitShare(rows, rows[k].serialNos[j]) == q
    {
      UnitShareOfOnlyRow(rows, rows[k].serialNos[j], k);
    }
  }

  lemma EvenPartsMakeWhole(n: real, c: real, q: real)
    requires n > 0.0 && q == c / n
    ensures n * q == c
  {
  }

  /** `q` added up `m` times. */
  function Times(m: nat, q: real): real
  {
    if m == 0 then 0.0 else Times(m - 1, q) + q
  }

  lemma {:induction false} TimesIsProduct(m: nat, q: real)
    ensures Times(m, q) == m as real * q
  {
    if m > 0 {
      TimesIsProduct(m - 1, q);
      assert (m - 1) as real * q + q == m as real * q;
    }
  }

  /** Units that each gain `q` gain `q` times their number together. */
  lemma {:induction false} SameSharesSum(rows: seq<ItemRow>, names: seq<string>, q: real)
    requires forall j :: 0 <= j < |names| ==> UnitShare(rows, names[j]) == q
    ensures SharesOf(rows, names) == Times(|names|, q)
  {
    if |names| > 0 {
      var m := |names| - 1;
      assert forall j :: 0 <= j < m ==> names[..m][j] == names[j];
      SameSharesSum(rows, names[..m], q);
    }
  }

  /* ---------- submission ---------- */

  /** Submitting a voucher: distribute the charges, then re-value the stock ledger and the
      serial numbers with the distributed rows; `repost` gives the new stock value of the
      entries the voucher alone does not determine. A failed distribution leaves the books
      alone. */
  function SubmitLandedCostVoucher(v: Voucher, books: Books, repost: StockLedgerEntry -> real): (r: Result<Submission>)
    ensures r.Err? <==> Distribute(v).Err?
    ensures r.Ok? ==> r.value.items == Distribute(v).value
    ensures r.Ok? ==> |r.value.books.ledger| == |books.ledger|
    ensures r.Ok? ==> forall i :: 0 <= i < |books.ledger| ==>
      && r.value.books.ledger[i].qtyAfterTransaction == books.ledger[i].qtyAfterTransaction
      && r.value.books.ledger[i].(stockValue := books.ledger[i].stockValue) == books.ledger[i]
    ensures r.Ok? ==> forall i :: 0 <= i < |books.ledger| && OwnCharges(r.value.items, books.ledger[i]) ==>
      r.value.books.ledger[i].stockValue - books.ledger[i].stockValue
        == LandedCostOn(r.value.items, books.ledger[i])
    ensures r.Ok? ==> forall i :: 0 <= i < |books.ledger| && !OwnCharges(r.value.items, books.ledger[i]) ==>
      r.value.books.ledger[i].stockValue == repost(books.ledger[i])
    ensures r.Ok? ==> |r.value.books.serials| == |books.serials|
    ensures r.Ok? ==> forall i :: 0 <= i < |books.serials| ==>
      && r.value.books.serials[i].name == books.serials[i].name
      && r.value.books.serials[i].warehouse == books.serials[i].warehouse
      && r.value.books.serials[i].purchaseRate - books.serials[i].purchaseRate
           == UnitShare(r.value.items, books.serials[i].name)
  {
    match Distribute(v)
    case Err(e) => Err(e)
    case Ok(items) =>
      Ok(Submission(items, Books(RevalueLedger(books.ledger, items, repost), UpdateSerialRates(books.serials, items))))
  }

  /** When row `k` is the only row that touches an entry's item and warehouse, and it posts to
      the entry, submission raises the entry's stock value by exactly that row's charge. */
  lemma OnlyRowRaisesEntry(v: Voucher, books: Books, repost: StockLedgerEntry -> real, i: int, k: int)
    requires Distribute(v).Ok?
    requires 0 <= i < |books.ledger| && 0 <= k < |v.items|
    requires PostsTo(v.items[k], books.ledger[i])
    requires forall j :: 0 <= j < |v.items| && j != k ==>
      v.items[j].itemCode != books.ledger[i].itemCode || v.items[j].warehouse != books.ledger[i].warehouse
    ensures var r := SubmitLandedCostVoucher(v, books, repost);
      && r.Ok?
      && r.value.books.ledger[i].qtyAfterTransaction == books.ledger[i].qtyAfterTransaction
      && r.value.books.ledger[i].stockValue - books.ledger[i].stockValue
           == FieldValue(Distribute(v).value[k], ApplicableCharges)
  {
    var items := Distribute(v).value;
    var e := books.ledger[i];
    assert forall j :: 0 <= j < |items| ==> items[j].(fields := v.items[j].fields) == v.items[j];
    assert PostsTo(items[k], e);
    ReceivedIffSomeRowPosts(items, e);
    ReceivedElsewhereIffSomeRowMoves(items, e);
    LandedCostOfOnlyRow(items, e, k);
  }
}

=== FILE: scenarios.dfy ===
/**
 The three voucher scenarios of the landed-cost tests, stated over arbitrary books: a
 purchase receipt with two rows, a stock-updating purchase invoice with one row, and a
 receipt whose first row is a serialized item with five units. Each voucher carries a
 single charge line of 50 distributed on the Amount basis.
 */
module Scenarios {
  import opened LandedCost
  import opened Revaluation
  import DistributionProperties

  /** The voucher the tests build: basis `Amount`, one charge line of 50. */
  function TestVoucher(items: seq<ItemRow>): Voucher
  {
    Voucher("Amount", 50.0, items)
  }

  /** Purchase receipt: when the two rows of one receipt have equal amounts, the first row's charge is 25, and
      the receipt's stock ledger entry for that row keeps its quantity and gains 25 in value. */
  lemma ReceiptVoucherRevaluesEntry(a: ItemRow, b: ItemRow, books: Books, repost: StockLedgerEntry -> real, i: int)
    requires FieldValue(a, "amount") > 0.0 && FieldValue(a, "amount") == FieldValue(b, "amount")
    requires a.receiptType == b.receiptType && a.receiptNo == b.receiptNo
    requires 0 <= i < |books.ledger|
    requires PostsTo(a, books.ledger[i]) && !PostsTo(b, books.ledger[i])
    ensures SubmitLandedCostVoucher(TestVoucher([a, b]), books, repost).Ok?
    ensures var r := SubmitLandedCostVoucher(TestVoucher([a, b]), books, repost);
      r.Ok? && FieldValue(r.value.items[0], ApplicableCharges) == 25.0
    ensures var r := SubmitLandedCostVoucher(TestVoucher([a, b]), books, repost);
      r.Ok? && r.value.books.ledger[i].qtyAfterTransaction == books.ledger[i].qtyAfterTransaction
    ensures var r := SubmitLandedCostVoucher(TestVoucher([a, b]), books, repost);
      r.Ok? && r.value.books.ledger[i].stockValue - books.ledger[i].stockValue == 25.0
  {
    DistributionProperties.ReceiptFirstRowGetsHalf(a, b);
    OnlyRowRaisesEntry(TestVoucher([a, b]), books, repost, i, 0);
  }

  /** Purchase invoice with stock update: its single row takes the whole 50, and its stock
      ledger entry keeps its quantity and gains 50 in value. */
  lemma InvoiceVoucherRevaluesEntry(row: ItemRow, books: Books, repost: StockLedgerEntry -> real, i: int)
    requires FieldValue(row, "amount") != 0.0
    requires 0 <= i < |books.ledger|
    requires PostsTo(row, books.ledger[i])
    ensures SubmitLandedCostVoucher(TestVoucher([row]), books, repost).Ok?
    ensures var r := SubmitLandedCostVoucher(TestVoucher([row]), books, repost);
      r.Ok? && FieldValue(r.value.items[0], ApplicableCharges) == 50.0
    ensures var r := SubmitLandedCostVoucher(TestVoucher([row]), books, repost);
      r.Ok? && r.value.books.ledger[i].qtyAfterTransaction == books.ledger[i].qtyAfterTransaction
    ensures var r := SubmitLandedCostVoucher(TestVoucher([row]), books, repost);
      r.Ok? && r.value.books.ledger[i].stockValue - books.ledger[i].stockValue == 50.0
  {
    DistributionProperties.InvoiceRowGetsFifty(row);
    OnlyRowRaisesEntry(TestVoucher([row]), books, repost, i, 0);
  }

  /** Serialized receipt: the first row lists five units and takes 25, so each of its units'
      purchase rate rises by 5 and the unit stays in its warehouse. */
  lemma SerializedReceiptRaisesUnitRate(a: ItemRow, b: ItemRow, books: Books, repost: StockLedgerEntry -> real, i: int)
    requires FieldValue(a, "amount") > 0.0 && FieldValue(a, "amount") == FieldValue(b, "amount")
    requires |a.serialNos| == 5
    requires 0 <= i < |books.serials|
    requires books.serials[i].name in a.serialNos && books.serials[i].name !in b.serialNos
    ensures SubmitLandedCostVoucher(TestVoucher([a, b]), books, repost).Ok?
    ensures var r := SubmitLandedCostVoucher(TestVoucher([a, b]), books, repost);
      r.Ok? && r.value.books.serials[i].purchaseRate - books.serials[i].purchaseRate == 5.0
    ensures var r := SubmitLandedCostVoucher(TestVoucher([a, b]), books, repost);
      r.Ok? && r.value.books.serials[i].warehouse == books.serials[i].warehouse
  {
    DistributionProperties.ReceiptFirstRowGetsHalf(a, b);
    var items := Distribute(TestVoucher([a, b])).value;
    assert items[0].serialNos == a.serialNos && items[1].serialNos == b.serialNos;
    UnitShareOfOnlyRow(items, books.serials[i].name, 0);
  }

  /* ---------- expected general ledger tables ---------- */

  datatype GlEntry = GlEntry(account: string, debit: real, credit: real)

  function TotalDebit(entries: seq<GlEntry>): real
  {
    if |entries| == 0 then 0.0 else TotalDebit(entries[..|entries| - 1]) + entries[|entries| - 1].debit
  }

  function TotalCredit(entries: seq<GlEntry>): real
  {
    if |entries| == 0 then 0.0 else TotalCredit(entries[..|entries| - 1]) + entries[|entries| - 1].credit
  }

  /** The postings the receipt test expects; the two valuation accounts are named after the
      receipt's warehouses. */
  function ReceiptPostings(stockInHand: string, fixedAsset: string): seq<GlEntry>
  {
    [ GlEntry(stockInHand, 400.0, 0.0),
      GlEntry(fixedAsset, 400.0, 0.0),
      GlEntry("Stock Received But Not Billed - _TC", 0.0, 500.0),
      GlEntry("Expenses Included In Valuation - _TC", 0.0, 300.0) ]
  }

  /** The postings the invoice test expects. */
  function InvoicePostings(warehouse: string): seq<GlEntry>
  {
    [ GlEntry(warehouse, 300.0, 0.0),
      GlEntry("Creditors - _TC", 0.0, 250.0),
      GlEntry("Expenses Included In Valuation - _TC", 0.0, 50.0) ]
  }

  /** Both expected tables balance: 800 against 800 and 300 against 300. */
  lemma ExpectedPostingsBalance(stockInHand: string, fixedAsset: string, warehouse: string)
    ensures TotalDebit(ReceiptPostings(stockInHand, fixedAsset)) == 800.0
    ensures TotalCredit(ReceiptPostings(stockInHand, fixedAsset)) == 800.0
    ensures TotalDebit(InvoicePostings(warehouse)) == 300.0
    ensures TotalCredit(InvoicePostings(warehouse)) == 300.0
  {
    var r := ReceiptPostings(stockInHand, fixedAsset);
    assert r[..1][..0] == [] && r[..2][..1] == r[..1] && r[..3][..2] == r[..2] && r[..4] == r;
    assert TotalDebit(r[..1]) == 400.0 && TotalCredit(r[..1]) == 0.0;
    assert TotalDebit(r[..2]) == 800.0 && TotalCredit(r[..2]) == 0.0;
    assert TotalDebit(r[..3]) == 800.0 && TotalCredit(r[..3]) == 500.0;
    var p := InvoicePostings(warehouse);
    assert p[..1][..0] == [] && p[..2][..1] == p[..1] && p[..3] == p;
    assert TotalDebit(p[..1]) == 300.0 && TotalCredit(p[..1]) == 0.0;
    assert TotalDebit(p[..2]) == 300.0 && TotalCredit(p[..2]) == 250.0;
  }
}
